=== FILE: README.md ===
# Account and access control of the JwtTest property-listing site, in Dafny

This project models the account and access-control logic of the site's
`AccountController`. It treats the controller as a set of sequential,
atomic transitions over an in-memory store. The store holds two tables:
`People` (id, login, password hash, role, optional avatar file name) and
`Address` (id, owner id, address text, description, cost, rooms). Each
action returns a result tag and the new store. The model covers:

- the credential check (`GetIdentity`) and the two ways an identity is
  handed out: the bearer token (`POST /token`) and the cookie session
  (`POST /Account/Login`, `LogOff`);
- the `[Authorize]` and `[Authorize(Roles = "Admin")]` gates, on `LogOff`,
  `Avatar` and the admin actions;
- registration (`RegisterUser`, `Register`, `CreateUser`), the admin's
  edit (`EditUser`) and delete (`DelUser`), and the login-uniqueness
  invariant that every sequence of these requests keeps;
- the user page (`Userpage`) and the ownership check of `DeleteAddress`;
- the choice of avatar file and content type (`Avatar`, `GetContentType`),
  including the .NET path functions they rely on.

Modules: `Wrappers` (Option), `Seqs` (the LINQ operators used), `Credentials`
(the hashing library as a parameter), `Entities` (tables and lookups),
`Claims`, `Responses`, `Authorization`, `Authentication`, `Accounts`,
`Invariants`, `Listings`, `Paths`, `Avatars` and `Scenarios`
(properties that span several requests).

Modelling choices:

- Argon2 is the parameter `Hasher`: `hash(salt, password)` and
  `verify(digest, password)`. The salt is drawn at random by the library,
  so it is an argument here. `Sound` (a digest verifies its own password)
  and `Binding` (it verifies no other) are stated as predicates and
  assumed by the lemmas that need them. `Credentials.Reference` shows that
  a hasher with both properties exists.
- Tables are sequences in query order. `Find` picks the first row with the
  key, and `FirstOrDefault` picks the first row that matches.
  `SingleOrDefault` throws when two rows match. That exception is an
  explicit outcome (`LookupFailed`, `TokenServerError`, `ServerError`).
  With unique logins it cannot occur, and the contracts say so.
- `DeleteAddress` dereferences the found listing without a null check. A
  missing listing is therefore modelled as the `ServerError` outcome with
  the store unchanged, and not as a precondition.
- Time is in .NET ticks. A token's lifetime is `Lifetime * 600_000_000`
  ticks, which is `TimeSpan.FromMinutes(Lifetime)`. The `JwtSecurityToken`
  constructor throws unless `expires` is after `notBefore`. So with a
  lifetime that is not positive, valid credentials get a server error.
- Paths follow .NET on a '/'-separated file system. The avatar name is
  `{random}.{Path.GetExtension(upload)}`. Because `GetExtension` keeps
  its leading dot, a `.png` upload is stored as `xxxxxxxx.yyy..png`.
  The model keeps this as written and proves that the stored name still
  carries the upload's extension.
- Session state is the `Option<Identity>` of the request. The current
  user's account id (`CurrentUser.Id`) is a parameter.
- `Userpage` and `DeleteAddress` carry `[Authorize]`. They are modelled
  for a signed-in caller, whose account id is their `userId`/`callerId`
  parameter; the anonymous case is the same challenge `Decide` gives
  every `[Authorize]` action, and neither action then runs.

Where the code departs from what such a layer is usually expected to do,
the model follows the code:

- `LogOff` carries `[Authorize]`. An anonymous caller is challenged;
  signing out twice is not a silent no-op.
- A non-owner's `DeleteAddress` silently keeps the listing and gets the
  same redirect as a real deletion (`Listings.NonOwnerDeleteChangesNothing`).
- Registration returns a boolean and not the new account id. Login
  uniqueness comes only from the check before the insert. Because requests
  are modelled as atomic, that check is enough here (see Left out).

## Model

| member | source | states |
|---|---|---|
| Entities.SingleByLogin | TestTemplate/JwtTest/Controllers/AccountController.cs:65 | SingleOrDefault by login: no match exactly when no account has the login; a match is the only account with it; with unique logins it never throws |
| Entities.AtMostOneMatch | TestTemplate/JwtTest/Controllers/AccountController.cs:65 | with unique logins at most one account matches a login, so the lookup cannot throw |
| Entities.FirstByLogin | TestTemplate/JwtTest/Controllers/AccountController.cs:301 | FirstOrDefault by login: the first row with that login, none exactly when no account has it |
| Entities.FindPerson | TestTemplate/JwtTest/Controllers/AccountController.cs:201 | Find by key: a row with that id, none exactly when no row has it |
| Entities.FindAddress | TestTemplate/JwtTest/Controllers/AccountController.cs:283 | Find on the listings by key: a listing with that id, none exactly when no listing has it |
| Seqs.Filter | TestTemplate/JwtTest/Controllers/AccountController.cs:267 | LINQ Where: only accepted rows, every accepted row kept, empty exactly when no row is accepted |
| Seqs.RemoveAt | TestTemplate/JwtTest/Controllers/AccountController.cs:256 | EF Remove of a found row (also line 285): one row fewer, the rows before it and after it kept in order |
| Claims.IdentityOf | TestTemplate/JwtTest/Controllers/AccountController.cs:68-72 | the identity's name claim is the login; its role claim is "Admin" exactly for admin accounts and "User" exactly for user accounts |
| Claims.RoleName | TestTemplate/JwtTest/Controllers/AccountController.cs:71 | Enum.GetName gives "Admin" exactly for Admin and "User" exactly for User |
| Authentication.GetIdentity | TestTemplate/JwtTest/Controllers/AccountController.cs:63-81 | granted only to an account with that login whose hash verifies the password, with that account's claims; with unique logins granted exactly when such an account exists; an unknown login is rejected |
| Authentication.Token | TestTemplate/JwtTest/Controllers/AccountController.cs:34-61 | a bad request always carries "Invalid username or password." and happens exactly when the credentials do not match; a token is issued exactly when they match and the lifetime is positive; notBefore is now, expires - notBefore is Lifetime minutes, the returned username is the name claim and the login |
| Authentication.TokenFailureIsUniform | TestTemplate/JwtTest/Controllers/AccountController.cs:37-41 | an unknown user and a wrong password get the identical response |
| Authentication.Login | TestTemplate/JwtTest/Controllers/AccountController.cs:139-152 | success exactly when the credentials match, and the session then holds that account's claims; on failure the session is left unchanged; with unique logins every failure is the generic form error, and the server error arises only from duplicate logins |
| Authentication.LoginFailureIsUniform | TestTemplate/JwtTest/Controllers/AccountController.cs:144-148 | an unknown user and a wrong password get the identical generic form error, with the session unchanged |
| Authentication.SessionAgreesWithToken | TestTemplate/JwtTest/Controllers/AccountController.cs:144-150 | with a positive token lifetime, a session sign-in succeeds exactly when a token is issued for the same credentials, and both carry the same claims |
| Authentication.LogOff | TestTemplate/JwtTest/Controllers/AccountController.cs:154-159 | a signed-in session is cleared with a redirect home; an anonymous caller is challenged |
| Authorization.Decide | TestTemplate/JwtTest/Controllers/AccountController.cs:161-168 | no identity gives a challenge; an identity whose role claim is not in the required set is forbidden; otherwise the action runs |
| Authorization.Guarded | TestTemplate/JwtTest/Controllers/AccountController.cs:250-251 | a refused action does not run and leaves the state untouched |
| Authorization.AdminGateIsExact | TestTemplate/JwtTest/Controllers/AccountController.cs:196 | the admin gate admits an account's identity exactly when the account's role is Admin; a User is forbidden |
| Accounts.NewAvatar | TestTemplate/JwtTest/Controllers/AccountController.cs:87-92 | an avatar name exists exactly when a file was uploaded, and it has the upload's extension |
| Accounts.RegisterUser | TestTemplate/JwtTest/Controllers/AccountController.cs:83-111 | refused, with the store unchanged, exactly when the login is taken; otherwise exactly one account is appended with that login and role, the salted hash of the password, the next identity value, and an avatar only if a file was given |
| Accounts.Register | TestTemplate/JwtTest/Controllers/AccountController.cs:119-131 | self-registration succeeds exactly when the login is free and then appends one User account with the form's login, the salted hash of its password, the next id and the upload's avatar name, keeping every other account, the listings and advancing the counter; a taken login re-shows the form with nothing changed |
| Accounts.CreateUser | TestTemplate/JwtTest/Controllers/AccountController.cs:167-180 | admin creation succeeds exactly when the login is free and then appends one account with the form's login, role, salted password hash, the next id and the upload's avatar name, keeping every other account and the listings; otherwise nothing changes |
| Accounts.EditUser | TestTemplate/JwtTest/Controllers/AccountController.cs:195-232 | an unknown id and a login taken by another account are errors with nothing changed; otherwise only that account changes: login and role replaced, hash replaced only for a non-empty new password, avatar only for a new upload, id kept |
| Accounts.DelUser | TestTemplate/JwtTest/Controllers/AccountController.cs:250-260 | always the ListUsers redirect; an unknown id changes nothing; otherwise exactly the found row is removed |
| Accounts.DelUserRemovesExactly | TestTemplate/JwtTest/Controllers/AccountController.cs:253-258 | with unique keys no account with the id remains, every other account remains, and listings are untouched |
| Accounts.CreateUserEndpoint | TestTemplate/JwtTest/Controllers/AccountController.cs:167-169 | CreateUser runs only behind the admin gate; a refused caller changes nothing |
| Accounts.EditUserEndpoint | TestTemplate/JwtTest/Controllers/AccountController.cs:195-197 | EditUser runs only behind the admin gate; a refused caller changes nothing |
| Accounts.DelUserEndpoint | TestTemplate/JwtTest/Controllers/AccountController.cs:250-251 | DelUser runs only behind the admin gate; a refused caller changes nothing |
| Accounts.NonAdminChangesNothing | TestTemplate/JwtTest/Controllers/AccountController.cs:161-251 | an anonymous or non-admin caller changes no account through create, edit or delete, and is challenged or forbidden |
| Invariants.RegisterUserKeepsConsistent | TestTemplate/JwtTest/Controllers/AccountController.cs:85-86 | registration keeps logins unique and keys unique and below the identity counter |
| Invariants.EditUserKeepsConsistent | TestTemplate/JwtTest/Controllers/AccountController.cs:204-209 | the edit's collision check keeps logins unique |
| Invariants.DelUserKeepsConsistent | TestTemplate/JwtTest/Controllers/AccountController.cs:253-258 | deletion keeps logins and keys unique |
| Invariants.ServeKeepsConsistent | TestTemplate/JwtTest/Controllers/AccountController.cs:119-260 | any one registration, creation, edit or deletion request keeps the store consistent |
| Invariants.ServeAllKeepsConsistent | TestTemplate/JwtTest/Controllers/AccountController.cs:85-86 | after any sequence of account requests no two accounts share a login |
| Invariants.RegisterTwice | TestTemplate/JwtTest/Controllers/AccountController.cs:85-86 | registering a free login twice in a row gives true, then false with the store unchanged |
| Listings.Userpage | TestTemplate/JwtTest/Controllers/AccountController.cs:262-278 | the page lists, in query order, exactly the caller's listings: every owned listing appears and every entry comes from an owned listing |
| Listings.DeleteAddress | TestTemplate/JwtTest/Controllers/AccountController.cs:280-289 | a missing listing fails with nothing changed; the store changes only when the caller owns the listing, and then exactly that row goes; every found listing gets the same redirect |
| Listings.OwnerDeleteRemovesOnlyThatListing | TestTemplate/JwtTest/Controllers/AccountController.cs:283-287 | an owner's delete leaves them one listing fewer, leaves every other owner's listings as they were, and leaves no listing with that id |
| Listings.NonOwnerDeleteChangesNothing | TestTemplate/JwtTest/Controllers/AccountController.cs:284-288 | a non-owner's delete changes no owner's listings and gets the same response the owner would |
| Paths.Combine | TestTemplate/JwtTest/Controllers/AccountController.cs:305-307 | Path.Combine gives the first part when the second is empty, the second alone when it is rooted or the first is empty, and otherwise the first, exactly one separator and the second |
| Paths.GetExtension | TestTemplate/JwtTest/Controllers/AccountController.cs:90 | Path.GetExtension is the suffix from the dot that no later dot or separator follows, and is empty when that dot ends the path or there is none |
| Paths.AvatarNameKeepsExtension | TestTemplate/JwtTest/Controllers/AccountController.cs:90 | the stored avatar name has the same extension as the uploaded file |
| Paths.LastDot | TestTemplate/JwtTest/Controllers/AccountController.cs:294 | LastIndexOf('.'): the position of a dot with no dot after it, none exactly when the string has no dot |
| Paths.ProviderExtension | TestTemplate/JwtTest/Controllers/AccountController.cs:294 | the content-type provider reads the suffix from the path's last dot, and reads one whenever the path has a dot |
| Paths.GetContentType | TestTemplate/JwtTest/Controllers/AccountController.cs:291-296 | the mapped type of the extension, and application/octet-stream exactly when there is no extension or no mapping |
| Paths.ProviderSeesUploadExtension | TestTemplate/JwtTest/Controllers/AccountController.cs:307-308 | a stored avatar's path is typed by the upload's extension, or by a lone dot when the upload had none |
| Paths.DecimalString | TestTemplate/JwtTest/Controllers/AccountController.cs:105 | an id's folder name is a non-empty string of decimal digits with no leading zero, and is "0" only for id 0 |
| Paths.DecimalRoundTrip | TestTemplate/JwtTest/Controllers/AccountController.cs:105 | the folder name reads back as the id |
| Avatars.Avatar | TestTemplate/JwtTest/Controllers/AccountController.cs:298-311 | the placeholder when the login is unknown or its first account has no avatar, otherwise Path.Combine(Path.Combine(imageFolder, id), avatar) for that account; the content type is derived from the chosen path |
| Avatars.AvatarEndpoint | TestTemplate/JwtTest/Controllers/AccountController.cs:298-299 | an anonymous request is challenged and chooses no file; any signed-in request is served what Avatar chooses |
| Avatars.AvatarIgnoresCaller | TestTemplate/JwtTest/Controllers/AccountController.cs:298-311 | every signed-in caller, whatever its own login or role, is served the same file for the same requested login |
| Avatars.StoredImagePathShape | TestTemplate/JwtTest/Controllers/AccountController.cs:307 | with an image folder without trailing separator and a relative file name, the stored image is at {imageFolder}/{id}/{file} |
| Avatars.PlaceholderIsUniform | TestTemplate/JwtTest/Controllers/AccountController.cs:304-305 | every caller without an avatar to serve gets the same placeholder path and content type |
| Avatars.RegisteredWithoutFileGetsPlaceholder | TestTemplate/JwtTest/Controllers/AccountController.cs:87-98 | an account registered without a file is served the placeholder |
| Avatars.RegisteredWithFileGetsItsImage | TestTemplate/JwtTest/Controllers/AccountController.cs:102-108 | an account registered with a file is served Path.Combine(Path.Combine(imageFolder, id), {random}.{ext}) for the new id, typed by the upload's extension |
| Avatars.RegisteredImageInOwnFolder | TestTemplate/JwtTest/Controllers/AccountController.cs:102-108 | with a random name as GetRandomFileName draws it (non-empty, no separator) and an image folder without trailing separator, that file is {imageFolder}/{id}/{random}.{ext}, inside the new account's own folder |
| Avatars.ImageFoldersAreDistinct | TestTemplate/JwtTest/Controllers/AccountController.cs:105 | different account ids get different image folders |
| Scenarios.SignInAs | TestTemplate/JwtTest/Controllers/AccountController.cs:65-76 | with unique logins an account signs in with a verifying password as exactly its own identity |
| Scenarios.WrongPasswordRefused | TestTemplate/JwtTest/Controllers/AccountController.cs:66 | with unique logins a password the stored hash does not verify is rejected |
| Scenarios.RegisteredUserSignsIn | TestTemplate/JwtTest/Controllers/AccountController.cs:93-99 | a fresh registration signs in with its password as its login and role |
| Scenarios.EditedUserSignsIn | TestTemplate/JwtTest/Controllers/AccountController.cs:220-223 | after an edit the account signs in under the new login with the new password if one was given, otherwise with the old one, and the old login stops working |
| Scenarios.AliceWalkThrough | TestTemplate/JwtTest/Controllers/AccountController.cs:119-125 | with a positive lifetime, register alice/pw123; session and token sign-in give {alice, User}; "wrong" is refused by both; the identity is forbidden from admin actions |

## Left out

- Argon2 hashing and verification: a foreign library. It is the `Hasher` parameter. Its soundness and binding are assumptions of the lemmas that use them.
- JWT construction, HMAC-SHA256 signing and encoding: library calls. The token keeps issuer, audience, times and claims. The signing key is not modelled. The times are the `DateTime` ticks passed to the constructor; the encoded token stores `nbf` and `exp` as whole seconds since the Unix epoch, truncating the sub-second part, and that conversion is not modelled.
- File-system I/O is not modelled: creating directories, writing, deleting and reading files. Only the choice of path and file name is modelled. Because of this, replacing an avatar on edit does not model deleting the old file.
- `Path.GetRandomFileName` is random, so its result is the `random` parameter. What it guarantees (a non-empty name without a separator) is the predicate `Paths.RandomFileName`, assumed only by `Avatars.RegisteredImageInOwnFolder`; the other avatar lemmas hold for any `random`.
- The MIME table of `FileExtensionContentTypeProvider` is the `mappings` parameter. Its case-insensitive key comparison is not modelled.
- `String.IsNullOrWhiteSpace` in the content-type provider is modelled with the ASCII and Latin-1 blanks only. Other Unicode space characters are left out.
- Windows path rules (backslash separators, drive roots) are not modelled. Paths use '/' only.
- `DateTime` range overflow in `now.Add(...)` is left out: time is an unbounded integer.
- Entity Framework persistence, `SaveChangesAsync` and the concurrent-registration race are left out. Each request is one atomic transition. The race that two parallel registrations could cause is therefore outside the model.
- What the database does to an account's listings when the account is deleted depends on configuration that is not part of this model. `DelUser` leaves the listings table as it was.
- `ModelState` validation is left out: it is attribute-driven and the attributes are not part of this model. Every form is taken as valid.
- Views and the GET actions that only render them are left out: `Register`, `Login`, `CreateUser`, `ListUsers`, `EditUser(id)`, `UserDetails`, `DeleteUser` and `RegisterAddress`. `RegisterAddress` (POST) is left out too: it only inserts a listing owned by the current user and checks nothing; the listings table is an input that `Userpage` and `DeleteAddress` read and that only `DeleteAddress` changes.
- `BaseController` is not part of this model. This covers `CurrentUser`, `Authenticate`, `Logout` and `ImageFolder`. The caller's account id and the folders are parameters. `Authenticate` is taken to store the same name and role claims that `GetIdentity` builds.
- Login comparison: every lookup by login (`SingleOrDefault` at lines 65 and 144, `Any` at 85 and 204, `FirstOrDefault` at 301) is modelled as ordinal string equality. Those queries run in the database under its collation, which is not part of this model; only `person.Login != model.Username` at line 204 is an ordinal C# comparison. Under a case-insensitive collation the model differs: "ALICE" would sign in as "alice", `Token` would return the stored login rather than the typed one (so `Token`'s `username == login` promise would not hold), and renaming an account to a case variant of its own login would be refused as taken, where `EditUser` here accepts it.
- Null arguments to `Token` are not modelled: the action has no form validation, so a request that leaves out `username` or `password` binds it as null, and what the hashing library does with a null password is not part of this model. `Authentication.TokenFailureIsUniform` therefore covers only requests that send both fields.
- Ids are `nat` in the model, while the actions take an `int` (`DelUser` at line 251, `DeleteAddress` at line 281, and the edit form's id). No row has a negative key, so a negative id behaves exactly like any other missing one: `DelUser` changes nothing, `EditUser` reports the bad id, and `DeleteAddress` fails as for a missing listing.
- A null `NewPassword` and an empty one are both the empty string in the model, since the code treats them alike.
- `TestTemplate/JwtTest/EF/Give_gift.cs` and `TestTemplate/JwtTest/Models/MyPage.cs` are plain property bags with no behaviour.

=== FILE: accounts.dfy ===
/** Account lifecycle: self-registration, the admin's create, edit and
    delete actions, and the login-uniqueness invariant they keep. */
module Accounts {
  import opened Wrappers
  import opened Seqs
  import opened Credentials
  import opened Entities
  import opened Claims
  import opened Responses
  import opened Authorization
  import Paths

  /** An uploaded form file, reduced to the file name the client sent. */
  datatype Upload = Upload(fileName: string)

  /** The stored avatar name for an optional upload; `random` stands for
      `Path.GetRandomFileName()`. */
  function NewAvatar(file: Option<Upload>, random: string): (r: Option<string>)
    ensures r.Some? <==> file.Some?
    ensures file.Some? ==> Paths.GetExtension(r.value) == Paths.GetExtension(file.value.fileName)
  {
    match file
    case None => None
    case Some(f) =>
      Paths.AvatarNameKeepsExtension(random, f.fileName);
      Some(Paths.AvatarFileName(random, f.fileName))
  }

  /** `RegisterUser`: refuses a login already in use; otherwise appends one
      account under the next identity value, with the password hashed
      under the drawn `salt`. */
  function RegisterUser(h: Hasher, s: Store, username: string, password: string, role: Role,
                        file: Option<Upload>, salt: Salt, random: string): (r: (bool, Store))
    ensures !r.0 <==> LoginTaken(s.people, username)
    ensures !r.0 ==> r.1 == s
    ensures r.0 ==> |r.1.people| == |s.people| + 1 && r.1.people[..|s.people|] == s.people
    ensures r.0 ==> r.1.addresses == s.addresses && r.1.nextPersonId == s.nextPersonId + 1
    ensures r.0 ==> var a := r.1.people[|s.people|];
      && a.id == s.nextPersonId && a.login == username && a.role == role
      && a.passwordHash == h.hash(salt, password)
      && (a.avatar.None? <==> file.None?)
      && a.avatar == NewAvatar(file, random)
  {
    if LoginTaken(s.people, username) then (false, s)
    else
      var person := Account(s.nextPersonId, username, h.hash(salt, password), role, NewAvatar(file, random));
      (true, s.(people := s.people + [person], nextPersonId := s.nextPersonId + 1))
  }

  const NameInUseText := "Данное имя уже используется"
  const NameTakenText := "Данное имя уже занято"
  const BadIdText := "Неверный ID"

  /** The registration form; `CreateUser`'s form also carries the role. */
  datatype RegisterModel = RegisterModel(username: string, password: string, avatar: Option<Upload>)
  datatype UserModel = UserModel(username: string, password: string, role: Role, avatar: Option<Upload>)

  /** `POST /Account/Register`: self-registration always creates a `User`. */
  function Register(h: Hasher, s: Store, m: RegisterModel, salt: Salt, random: string): (r: (Response, Store))
    ensures r.0 == Redirect(HomeUrl) <==> !LoginTaken(s.people, m.username)
    ensures r.0 != Redirect(HomeUrl) ==> r == (FormError("Username", NameInUseText), s)
    ensures r.0 == Redirect(HomeUrl) ==> |r.1.people| == |s.people| + 1 && r.1.people[|s.people|].role == User
    ensures r.0 == Redirect(HomeUrl) ==>
      && r.1.people[..|s.people|] == s.people
      && r.1.addresses == s.addresses && r.1.nextPersonId == s.nextPersonId + 1
      && var a := r.1.people[|s.people|];
         && a.id == s.nextPersonId && a.login == m.username
         && a.passwordHash == h.hash(salt, m.password)
         && a.avatar == NewAvatar(m.avatar, random)
  {
    var (ok, after) := RegisterUser(h, s, m.username, m.password, User, m.avatar, salt, random);
    if ok then (Redirect(HomeUrl), after) else (FormError("Username", NameInUseText), s)
  }

  /** The body of `POST /Account/CreateUser`: registration with a chosen role. */
  function CreateUser(h: Hasher, s: Store, m: UserModel, salt: Salt, random: string): (r: (Response, Store))
    ensures r.0 == Redirect(HomeUrl) <==> !LoginTaken(s.people, m.username)
    ensures r.0 != Redirect(HomeUrl) ==> r == (FormError("Username", NameInUseText), s)
    ensures r.0 == Redirect(HomeUrl) ==> |r.1.people| == |s.people| + 1 && r.1.people[|s.people|].role == m.role
    ensures r.0 == Redirect(HomeUrl) ==>
      && r.1.people[..|s.people|] == s.people
      && r.1.addresses == s.addresses && r.1.nextPersonId == s.nextPersonId + 1
      && var a := r.1.people[|s.people|];
         && a.id == s.nextPersonId && a.login == m.username
         && a.passwordHash == h.hash(salt, m.password)
         && a.avatar == NewAvatar(m.avatar, random)
  {
    var (ok, after) := RegisterUser(h, s, m.username, m.password, m.role, m.avatar, salt, random);
    if ok then (Redirect(HomeUrl), after) else (FormError("Username", NameInUseText), s)
  }

  /** The admin's edit form. An empty `newPassword` stands for a null or
      empty field and keeps the current password. */
  datatype EditUserModel = EditUserModel(id: nat, username: string, newPassword: string, role: Role, avatar: Option<Upload>)

  /** Renaming account `k` to `username` would clash with another account. */
  predicate Collides(people: seq<Account>, k: nat, username: string)
    requires k < |people|
  {
    people[k].login != username && LoginTaken(people, username)
  }

  /** `after` is `before` as edited by `m`: login and role replaced, hash
      replaced only when a new password is given, avatar only when a new
      file is uploaded, id kept. */
  predicate EditedAs(before: Account, after: Account, m: EditUserModel, h: Hasher, salt: Salt, random: string) {
    && after.id == before.id
    && after.login == m.username
    && after.role == m.role
    && after.passwordHash == (if m.newPassword == "" then before.passwordHash else h.hash(salt, m.newPassword))
    && after.avatar == (if m.avatar.None? then before.avatar else NewAvatar(m.avatar, random))
  }

  /** The body of `POST /Account/EditUser`. */
  function EditUser(h: Hasher, s: Store, m: EditUserModel, salt: Salt, random: string): (r: (Response, Store))
    ensures FindPerson(s.people, m.id).None? ==> r == (FormError("", BadIdText), s)
    ensures FindPerson(s.people, m.id).Some? && Collides(s.people, FindPerson(s.people, m.id).value, m.username)
            ==> r == (FormError("Username", NameTakenText), s)
    ensures r.0 == Redirect(HomeUrl) <==>
            FindPerson(s.people, m.id).Some? && !Collides(s.people, FindPerson(s.people, m.id).value, m.username)
    ensures r.0 == Redirect(HomeUrl) ==>
      var k := FindPerson(s.people, m.id).value;
      && r.1.addresses == s.addresses && r.1.nextPersonId == s.nextPersonId
      && |r.1.people| == |s.people|
      && (forall j :: 0 <= j < |s.people| && j != k ==> r.1.people[j] == s.people[j])
      && EditedAs(s.people[k], r.1.people[k], m, h, salt, random)
  {
    match FindPerson(s.people, m.id)
    case None => (FormError("", BadIdText), s)
    case Some(k) =>
      var person := s.people[k];
      if person.login != m.username && LoginTaken(s.people, m.username) then
        (FormError("Username", NameTakenText), s)
      else
        var avatar := if m.avatar.Some? then NewAvatar(m.avatar, random) else person.avatar;
        var hash := if m.newPassword == "" then person.passwordHash else h.hash(salt, m.newPassword);
        var edited := person.(login := m.username, passwordHash := hash, role := m.role, avatar := avatar);
        (Redirect(HomeUrl), s.(people := s.people[k := edited]))
  }

  /** The body of `DelUser`: removes the account with that key, and does
      nothing when there is none; the response is the same either way. */
  function DelUser(s: Store, id: nat): (r: (Response, Store))
    ensures r.0 == Redirect(ListUsersUrl)
    ensures FindPerson(s.people, id).None? ==> r.1 == s
    ensures FindPerson(s.people, id).Some? ==>
      r.1 == s.(people := RemoveAt(s.people, FindPerson(s.people, id).value))
  {
    match FindPerson(s.people, id)
    case None => (Redirect(ListUsersUrl), s)
    case Some(k) => (Redirect(ListUsersUrl), s.(people := RemoveAt(s.people, k)))
  }

  /** With keys unique, deletion removes exactly the account with that key. */
  lemma DelUserRemovesExactly(s: Store, id: nat)
    requires Keyed(s)
    ensures var after := DelUser(s, id).1;
            && after.addresses == s.addresses
            && (forall j :: 0 <= j < |after.people| ==> after.people[j].id != id)
            && (forall j :: 0 <= j < |s.people| && s.people[j].id != id ==> s.people[j] in after.people)
  {
    var after := DelUser(s, id).1;
    if FindPerson(s.people, id).Some? {
      var k := FindPerson(s.people, id).value;
      forall j | 0 <= j < |s.people| && s.people[j].id != id ensures s.people[j] in after.people {
        if j < k { assert after.people[j] == s.people[j]; }
        else { assert after.people[j - 1] == s.people[j]; }
      }
    }
  }

  /** The admin actions as served: behind `[Authorize(Roles = "Admin")]`. */
  function CreateUserEndpoint(principal: Option<Identity>, h: Hasher, s: Store, m: UserModel,
                              salt: Salt, random: string): (r: (Response, Store))
    ensures Decide(principal, AdminOnly).Some? ==> r.1 == s && (r.0 == Challenge || r.0 == Forbid)
    ensures Decide(principal, AdminOnly).None? ==> r == CreateUser(h, s, m, salt, random)
  {
    Guarded(principal, AdminOnly, s, (st: Store) => CreateUser(h, st, m, salt, random))
  }

  function EditUserEndpoint(principal: Option<Identity>, h: Hasher, s: Store, m: EditUserModel,
                            salt: Salt, random: string): (r: (Response, Store))
    ensures Decide(principal, AdminOnly).Some? ==> r.1 == s && (r.0 == Challenge || r.0 == Forbid)
    ensures Decide(principal, AdminOnly).None? ==> r == EditUser(h, s, m, salt, random)
  {
    Guarded(principal, AdminOnly, s, (st: Store) => EditUser(h, st, m, salt, random))
  }

  function DelUserEndpoint(principal: Option<Identity>, s: Store, id: nat): (r: (Response, Store))
    ensures Decide(principal, AdminOnly).Some? ==> r.1 == s && (r.0 == Challenge || r.0 == Forbid)
    ensures Decide(principal, AdminOnly).None? ==> r == DelUser(s, id)
  {
    Guarded(principal, AdminOnly, s, (st: Store) => DelUser(st, id))
  }

  /** A caller without an admin role claim changes no account through any
      admin action: an anonymous one is challenged, a signed-in one forbidden. */
  lemma NonAdminChangesNothing(principal: Option<Identity>, h: Hasher, s: Store, salt: Salt, random: string,
                               create: UserModel, edit: EditUserModel, id: nat)
    requires principal.None? || principal.value.role != "Admin"
    ensures CreateUserEndpoint(principal, h, s, create, salt, random).1 == s
    ensures EditUserEndpoint(principal, h, s, edit, salt, random).1 == s
    ensures DelUserEndpoint(principal, s, id).1 == s
    ensures principal.None? ==> DelUserEndpoint(principal, s, id).0 == Challenge
    ensures principal.Some? ==> DelUserEndpoint(principal, s, id).0 == Forbid
  {
  }
}

=== FILE: authentication.dfy ===
/** Credential checking and the two ways a verified identity is handed
    out: a signed bearer token (`POST /token`) and a cookie session
    (`POST /Account/Login`), plus signing out (`LogOff`). */
module Authentication {
  import opened Wrappers
  import opened Credentials
  import opened Entities
  import opened Claims
  import opened Responses
  import opened Authorization

  /** The outcome of the credential check: the identity, a rejection that
      does not say why, or the exception `SingleOrDefault` throws when two
      accounts share the login. */
  datatype Auth = Authenticated(identity: Identity) | InvalidCredentials | LookupFailed

  /** Some account has this login and its stored hash verifies the password. */
  ghost predicate CredentialsMatch(h: Hasher, people: seq<Account>, username: string, password: string) {
    exists i :: 0 <= i < |people| && people[i].login == username && h.verify(people[i].passwordHash, password)
  }

  /** `GetIdentity`: look the account up by login and check the password. */
  function GetIdentity(h: Hasher, people: seq<Account>, username: string, password: string): (r: Auth)
    ensures r.Authenticated? ==>
      exists i :: 0 <= i < |people| && people[i].login == username
        && h.verify(people[i].passwordHash, password) && r.identity == IdentityOf(people[i])
    ensures UniqueLogins(people) ==> (r.Authenticated? <==> CredentialsMatch(h, people, username, password))
    ensures UniqueLogins(people) ==> !r.LookupFailed?
    ensures !LoginTaken(people, username) ==> r == InvalidCredentials
  {
    match SingleByLogin(people, username)
    case NoMatch => InvalidCredentials
    case Ambiguous => LookupFailed
    case Match(person) =>
      if h.verify(person.passwordHash, password) then Authenticated(IdentityOf(person))
      else InvalidCredentials
  }

  const InvalidCredentialsText := "Invalid username or password."

  /** .NET `DateTime` ticks (100 ns) in one minute. */
  const TicksPerMinute := 600_000_000

  /** The token settings the controller reads from `AuthOptions`; the
      signing key is not modelled. */
  datatype AuthOptions = AuthOptions(issuer: string, audience: string, lifetime: int)

  /** The arguments an issued JWT is built from. `notBefore` and `expires`
      are the `DateTime` values passed to the constructor, in ticks; the
      encoded token's whole-second `nbf` and `exp` are not modelled. */
  datatype Jwt = Jwt(issuer: string, audience: string, notBefore: int, expires: int, claims: Identity)

  /** `Token`'s results: the JSON body with the token, the 400 with the
      error text, or the unhandled lookup exception. */
  datatype TokenResponse =
    | Issued(accessToken: Jwt, username: string)
    | BadRequest(errorText: string)
    | TokenServerError

  /** `POST /token`. `now` is the value of `DateTime.UtcNow`. The token
      constructor throws unless `expires` is after `notBefore`, so a
      lifetime that is not positive fails every valid sign-in. */
  function Token(h: Hasher, people: seq<Account>, options: AuthOptions, now: int,
                 username: string, password: string): (r: TokenResponse)
    ensures r.BadRequest? ==> r.errorText == InvalidCredentialsText
    ensures UniqueLogins(people) ==>
      (r.Issued? <==> CredentialsMatch(h, people, username, password) && options.lifetime > 0)
    ensures UniqueLogins(people) ==> (r.BadRequest? <==> !CredentialsMatch(h, people, username, password))
    ensures r.Issued? ==> r.accessToken.notBefore == now
    ensures r.Issued? ==> r.accessToken.expires - r.accessToken.notBefore == options.lifetime * TicksPerMinute
    ensures r.Issued? ==> r.accessToken.notBefore <= now < r.accessToken.expires
    ensures r.Issued? ==> r.accessToken.issuer == options.issuer && r.accessToken.audience == options.audience
    ensures r.Issued? ==> r.username == r.accessToken.claims.name == username
    ensures r.Issued? ==>
      exists i :: 0 <= i < |people| && people[i].login == username
        && h.verify(people[i].passwordHash, password) && r.accessToken.claims == IdentityOf(people[i])
  {
    match GetIdentity(h, people, username, password)
    case InvalidCredentials => BadRequest(InvalidCredentialsText)
    case LookupFailed => TokenServerError
    case Authenticated(identity) =>
      var expires := now + options.lifetime * TicksPerMinute;
      if now >= expires then TokenServerError
      else Issued(Jwt(options.issuer, options.audience, now, expires, identity), identity.name)
  }

  /** An unknown user and a known user with a wrong password get the very
      same response, so the response does not reveal which logins exist. */
  lemma TokenFailureIsUniform(h: Hasher, people: seq<Account>, options: AuthOptions, now: int,
                              unknown: string, anyPassword: string, i: nat, wrongPassword: string)
    requires UniqueLogins(people)
    requires !LoginTaken(people, unknown)
    requires i < |people| && !h.verify(people[i].passwordHash, wrongPassword)
    ensures Token(h, people, options, now, unknown, anyPassword)
         == Token(h, people, options, now + 1, people[i].login, wrongPassword)
         == BadRequest(InvalidCredentialsText)
  {
    var login := people[i].login;
    assert !CredentialsMatch(h, people, login, wrongPassword) by {
      forall j | 0 <= j < |people| && people[j].login == login
        ensures !h.verify(people[j].passwordHash, wrongPassword)
      {
        assert j == i;
      }
    }
  }

  const LoginErrorText := "Неверное имя пользователя или пароль"

  /** `POST /Account/Login`: on success the session holds the account's
      claims and the browser is sent home; on failure the form is shown
      again and the session is left as it was. */
  function Login(h: Hasher, people: seq<Account>, session: Option<Identity>,
                 username: string, password: string): (r: (Response, Option<Identity>))
    ensures r.0 == Redirect(HomeUrl) || r.0 == FormError("Username", LoginErrorText) || r.0 == ServerError
    ensures r.0 != Redirect(HomeUrl) ==> r.1 == session
    ensures UniqueLogins(people) ==> (r.0 == Redirect(HomeUrl) <==> CredentialsMatch(h, people, username, password))
    ensures UniqueLogins(people) && !CredentialsMatch(h, people, username, password)
            ==> r == (FormError("Username", LoginErrorText), session)
    ensures r.0 == ServerError ==> !UniqueLogins(people)
    ensures r.0 == Redirect(HomeUrl) ==>
      exists i :: 0 <= i < |people| && people[i].login == username
        && h.verify(people[i].passwordHash, password) && r.1 == Some(IdentityOf(people[i]))
  {
    match SingleByLogin(people, username)
    case NoMatch => (FormError("Username", LoginErrorText), session)
    case Ambiguous => (ServerError, session)
    case Match(person) =>
      if h.verify(person.passwordHash, password) then (Redirect(HomeUrl), Some(IdentityOf(person)))
      else (FormError("Username", LoginErrorText), session)
  }

  /** The sign-in form answers an unknown user and a wrong password alike,
      and neither touches the session. */
  lemma LoginFailureIsUniform(h: Hasher, people: seq<Account>, session: Option<Identity>,
                              unknown: string, anyPassword: string, i: nat, wrongPassword: string)
    requires UniqueLogins(people)
    requires !LoginTaken(people, unknown)
    requires i < |people| && !h.verify(people[i].passwordHash, wrongPassword)
    ensures Login(h, people, session, unknown, anyPassword)
         == Login(h, people, session, people[i].login, wrongPassword)
         == (FormError("Username", LoginErrorText), session)
  {
    var login := people[i].login;
    assert !CredentialsMatch(h, people, login, wrongPassword) by {
      forall j | 0 <= j < |people| && people[j].login == login
        ensures !h.verify(people[j].passwordHash, wrongPassword)
      {
        assert j == i;
      }
    }
  }

  /** A session and a token obtained with the same credentials carry the
      same claims, so they pass the same authorization gates. */
  lemma SessionAgreesWithToken(h: Hasher, people: seq<Account>, session: Option<Identity>,
                               options: AuthOptions, now: int, username: string, password: string)
    requires UniqueLogins(people) && options.lifetime > 0
    ensures var (response, after) := Login(h, people, session, username, password);
            var token := Token(h, people, options, now, username, password);
            (response == Redirect(HomeUrl) <==> token.Issued?)
            && (token.Issued? ==> after == Some(token.accessToken.claims))
  {
    var (response, after) := Login(h, people, session, username, password);
    var token := Token(h, people, options, now, username, password);
    if token.Issued? {
      var i :| 0 <= i < |people| && people[i].login == username
        && h.verify(people[i].passwordHash, password) && token.accessToken.claims == IdentityOf(people[i]);
      var j :| 0 <= j < |people| && people[j].login == username
        && h.verify(people[j].passwordHash, password) && after == Some(IdentityOf(people[j]));
      assert i == j;
    }
  }

  /** `LogOff`, behind `[Authorize]`: a signed-in caller's session is
      cleared; a caller without one is challenged. */
  function LogOff(session: Option<Identity>): (r: (Response, Option<Identity>))
    ensures session.Some? ==> r == (Redirect(HomeUrl), None)
    ensures session.None? ==> r == (Challenge, None)
  {
    Guarded(session, AnyAuthenticated, session, (s: Option<Identity>) => (Redirect(HomeUrl), None))
  }
}

=== FILE: authorization.dfy ===
/** The `[Authorize]` and `[Authorize(Roles = "Admin")]` attributes: a gate
    evaluated before an action runs, on the identity of the request. */
module Authorization {
  import opened Wrappers
  import opened Entities
  import opened Claims
  import opened Responses

  /** What an action demands: any signed-in identity, or one whose role
      claim is one of the listed names. */
  datatype Policy = AnyAuthenticated | InRoles(roles: set<string>)

  const AdminOnly := InRoles({"Admin"})

  /** The gate's verdict: None lets the action run; otherwise the response
      that replaces it. */
  function Decide(principal: Option<Identity>, policy: Policy): (r: Option<Response>)
    ensures r.None? <==> principal.Some? && (policy.InRoles? ==> principal.value.role in policy.roles)
    ensures principal.None? ==> r == Some(Challenge)
    ensures principal.Some? && r.Some? ==> r == Some(Forbid)
  {
    match principal
    case None => Some(Challenge)
    case Some(identity) =>
      match policy
      case AnyAuthenticated => None
      case InRoles(roles) => if identity.role in roles then None else Some(Forbid)
  }

  /** An action behind the gate: when the gate refuses, the action does not
      run and the state is returned untouched. */
  function Guarded<S(==)>(principal: Option<Identity>, policy: Policy, state: S,
                          action: S -> (Response, S)): (r: (Response, S))
    ensures Decide(principal, policy).Some? ==> r.1 == state && (r.0 == Challenge || r.0 == Forbid)
    ensures Decide(principal, policy).None? ==> r == action(state)
  {
    match Decide(principal, policy)
    case Some(denied) => (denied, state)
    case None => action(state)
  }

  /** The admin gate admits exactly the identities issued for admin accounts:
      role membership is exact, with no hierarchy between roles. */
  lemma AdminGateIsExact(a: Account)
    ensures Decide(Some(IdentityOf(a)), AdminOnly).None? <==> a.role == Admin
    ensures a.role == User ==> Decide(Some(IdentityOf(a)), AdminOnly) == Some(Forbid)
  {
  }
}

=== FILE: avatars.dfy ===
/** `GET /Account/Avatar?username=…`: which image file is served for a
    login, and with which content type. Reading the file is not modelled. */
module Avatars {
  import opened Wrappers
  import opened Credentials
  import opened Entities
  import opened Paths
  import opened Claims
  import opened Responses
  import opened Authorization
  import Accounts

  /** The two folders the choice depends on: the host's content root and
      the controller's avatar folder. */
  datatype Folders = Folders(contentRoot: string, imageFolder: string)

  /** The placeholder served when there is no avatar to serve. */
  function DefaultImagePath(folders: Folders): string {
    Combine(Combine(folders.contentRoot, "DefaultImages"), "no_ava.png")
  }

  /** The stored avatar of an account: `{imageFolder}/{id}/{avatar}`. */
  function StoredImagePath(folders: Folders, id: nat, file: string): string {
    Combine(Combine(folders.imageFolder, DecimalString(id)), file)
  }

  /** The file served for `username`, and its content type. */
  datatype Served = Served(path: string, contentType: string)

  /** `Avatar`: the first account with that login, if it has an avatar,
      gets its stored image; otherwise the placeholder. */
  function Avatar(s: Store, folders: Folders, mappings: map<string, string>, username: string): (r: Served)
    ensures r.contentType == GetContentType(r.path, mappings)
    ensures
      || (r.path == DefaultImagePath(folders)
          && (LoginTaken(s.people, username) ==> s.people[FirstByLogin(s.people, username).value].avatar.None?))
      || (exists i :: 0 <= i < |s.people| && FirstByLogin(s.people, username) == Some(i)
            && s.people[i].avatar.Some? && r.path == StoredImagePath(folders, s.people[i].id, s.people[i].avatar.value))
    ensures FirstByLogin(s.people, username).None? ==> r.path == DefaultImagePath(folders)
  {
    var path :=
      match FirstByLogin(s.people, username)
      case None => DefaultImagePath(folders)
      case Some(i) =>
        if s.people[i].avatar.None? then DefaultImagePath(folders)
        else StoredImagePath(folders, s.people[i].id, s.people[i].avatar.value);
    Served(path, GetContentType(path, mappings))
  }

  /** What the endpoint answers: the chosen image, or the gate's refusal. */
  datatype AvatarReply = Image(served: Served) | Refused(response: Response)

  /** The action behind `[Authorize]`: an anonymous request is challenged
      and nothing is chosen; any signed-in request gets `Avatar`. */
  function AvatarEndpoint(principal: Option<Identity>, s: Store, folders: Folders,
                          mappings: map<string, string>, username: string): (r: AvatarReply)
    ensures r.Refused? <==> principal.None?
    ensures r.Refused? ==> r.response == Challenge
    ensures principal.Some? ==> r == Image(Avatar(s, folders, mappings, username))
  {
    match Decide(principal, AnyAuthenticated)
    case Some(denied) => Refused(denied)
    case None => Image(Avatar(s, folders, mappings, username))
  }

  /** The image depends on the requested login only: every signed-in
      caller, whatever its own login or role, is served the same file. */
  lemma AvatarIgnoresCaller(p1: Identity, p2: Identity, s: Store, folders: Folders,
                            mappings: map<string, string>, username: string)
    ensures AvatarEndpoint(Some(p1), s, folders, mappings, username)
            == AvatarEndpoint(Some(p2), s, folders, mappings, username)
  {
  }

  /** With an image folder that has no trailing separator and a relative
      file name, the stored path is `{imageFolder}/{id}/{file}`. */
  lemma StoredImagePathShape(folders: Folders, id: nat, file: string)
    requires folders.imageFolder != "" && folders.imageFolder[|folders.imageFolder| - 1] != Separator
    requires file != "" && file[0] != Separator
    ensures StoredImagePath(folders, id, file) == folders.imageFolder + "/" + DecimalString(id) + "/" + file
  {
    var digits := DecimalString(id);
    var folder := Combine(folders.imageFolder, digits);
    assert folder == folders.imageFolder + "/" + digits;
    assert folder[|folder| - 1] == digits[|digits| - 1];
  }

  /** Every caller without an avatar to serve gets the same placeholder,
      with the same content type. */
  lemma PlaceholderIsUniform(s1: Store, s2: Store, folders: Folders, mappings: map<string, string>,
                             u1: string, u2: string)
    requires FirstByLogin(s1.people, u1).None? || s1.people[FirstByLogin(s1.people, u1).value].avatar.None?
    requires FirstByLogin(s2.people, u2).None? || s2.people[FirstByLogin(s2.people, u2).value].avatar.None?
    ensures Avatar(s1, folders, mappings, u1) == Avatar(s2, folders, mappings, u2)
    ensures Avatar(s1, folders, mappings, u1).path == DefaultImagePath(folders)
  {
  }

  /** An account registered without a file is served the placeholder. */
  lemma RegisteredWithoutFileGetsPlaceholder(h: Hasher, s: Store, folders: Folders, mappings: map<string, string>,
                                             username: string, password: string, role: Role,
                                             salt: Salt, random: string)
    requires !LoginTaken(s.people, username)
    ensures var after := Accounts.RegisterUser(h, s, username, password, role, None, salt, random).1;
            Avatar(after, folders, mappings, username).path == DefaultImagePath(folders)
  {
    var after := Accounts.RegisterUser(h, s, username, password, role, None, salt, random).1;
    var n := |s.people|;
    assert FirstByLogin(after.people, username) == Some(n) by {
      assert after.people[n].login == username;
      forall j | 0 <= j < n ensures after.people[j].login != username {
        assert after.people[j] == s.people[j];
      }
    }
  }

  /** An account registered with a file is served that file from its own
      folder, typed by the uploaded file's extension (a lone dot when the
      upload had none). */
  lemma RegisteredWithFileGetsItsImage(h: Hasher, s: Store, folders: Folders, mappings: map<string, string>,
                                       username: string, password: string, role: Role,
                                       upload: Accounts.Upload, salt: Salt, random: string)
    requires !LoginTaken(s.people, username)
    ensures var after := Accounts.RegisterUser(h, s, username, password, role, Some(upload), salt, random).1;
            var served := Avatar(after, folders, mappings, username);
            var e := GetExtension(upload.fileName);
            var ext := if e == "" then "." else e;
            && served.path == StoredImagePath(folders, s.nextPersonId, AvatarFileName(random, upload.fileName))
            && served.contentType == (if ext in mappings then mappings[ext] else OctetStream)
  {
    var after := Accounts.RegisterUser(h, s, username, password, role, Some(upload), salt, random).1;
    var n := |s.people|;
    assert FirstByLogin(after.people, username) == Some(n) by {
      assert after.people[n].login == username;
      forall j | 0 <= j < n ensures after.people[j].login != username {
        assert after.people[j] == s.people[j];
      }
    }
    ProviderSeesUploadExtension(Combine(folders.imageFolder, DecimalString(s.nextPersonId)), random, upload.fileName);
  }

  /** With a name as `GetRandomFileName` draws it and an image folder
      without trailing separator, a registered upload is served from the
      sub-folder named by the new account's id. */
  lemma RegisteredImageInOwnFolder(h: Hasher, s: Store, folders: Folders, mappings: map<string, string>,
                                   username: string, password: string, role: Role,
                                   upload: Accounts.Upload, salt: Salt, random: string)
    requires !LoginTaken(s.people, username)
    requires RandomFileName(random)
    requires folders.imageFolder != "" && folders.imageFolder[|folders.imageFolder| - 1] != Separator
    ensures var after := Accounts.RegisterUser(h, s, username, password, role, Some(upload), salt, random).1;
            Avatar(after, folders, mappings, username).path
              == folders.imageFolder + "/" + DecimalString(s.nextPersonId) + "/" + AvatarFileName(random, upload.fileName)
  {
    RegisteredWithFileGetsItsImage(h, s, folders, mappings, username, password, role, upload, salt, random);
    var name := AvatarFileName(random, upload.fileName);
    assert name[0] == random[0];
    StoredImagePathShape(folders, s.nextPersonId, name);
  }

  /** Different accounts' stored images live in different folders. */
  lemma ImageFoldersAreDistinct(folders: Folders, id1: nat, id2: nat)
    requires id1 != id2
    ensures Combine(folders.imageFolder, DecimalString(id1)) != Combine(folders.imageFolder, DecimalString(id2))
  {
    DecimalStringInjective(id1, id2);
  }
}

=== FILE: claims.dfy ===
/** The identity built from an authenticated account: the name and role
    claims that both the bearer token and the cookie session carry. */
module Claims {
  import opened Entities

  /** A claims identity reduced to its two claims. The role claim is the
      role's enum name as a string, the way the controller writes it. */
  datatype Identity = Identity(name: string, role: string)

  /** `Enum.GetName` on a role. */
  function RoleName(role: Role): (name: string)
    ensures name == "Admin" <==> role == Admin
    ensures name == "User" <==> role == User
  {
    match role
    case User => "User"
    case Admin => "Admin"
  }

  /** The claims issued for an account: its login as the name claim and
      its role name as the role claim. */
  function IdentityOf(a: Account): (id: Identity)
    ensures id.name == a.login
    ensures id.role == "Admin" <==> a.role == Admin
    ensures id.role == "User" <==> a.role == User
  {
    Identity(a.login, RoleName(a.role))
  }
}

=== FILE: credentials.dfy ===
/** The password-hashing library (Argon2) seen from the controller: a
    salted `Hash` and a `Verify`. The library itself is not modelled;
    every operation takes the pair as a parameter, and the properties the
    controller relies on are stated as predicates over it. */
module Credentials {

  /** The random salt `Hash` draws on each call. */
  type Salt = nat

  /** The self-describing encoded hash string stored with an account. */
  type Digest = string

  datatype Hasher = Hasher(hash: (Salt, string) -> Digest, verify: (Digest, string) -> bool)

  /** Verification accepts the password a digest was made from, whatever salt was drawn. */
  ghost predicate Sound(h: Hasher) {
    forall salt, password :: h.verify(h.hash(salt, password), password)
  }

  /** Verification accepts no other password than the one hashed. */
  ghost predicate Binding(h: Hasher) {
    forall salt, password, guess :: h.verify(h.hash(salt, password), guess) ==> guess == password
  }

  /** A hasher with both properties exists, so lemmas that assume them are not vacuous. */
  function Reference(): (h: Hasher)
    ensures Sound(h) && Binding(h)
  {
    Hasher((salt: Salt, password: string) => password, (d: Digest, guess: string) => d == guess)
  }
}

=== FILE: entities.dfy ===
/** The persistent entities the controller reads and writes (`Person`,
    `Address`), the store holding their tables, and the lookups the
    controller performs on them. */
module Entities {
  import opened Wrappers
  import opened Seqs
  import Credentials

  datatype Role = User | Admin

  /** A row of the `People` table. `avatar` is the file name inside the
      account's own image folder, or None when no avatar was uploaded. */
  datatype Account = Account(
    id: nat,
    login: string,
    passwordHash: Credentials.Digest,
    role: Role,
    avatar: Option<string>)

  /** A row of the `Address` table; `owner` is the id of the owning account. */
  datatype Address = Address(
    id: nat,
    owner: nat,
    addr: string,
    description: string,
    cost: int,
    rooms: int)

  /** Both tables, plus the next value of the `People` identity column. */
  datatype Store = Store(people: seq<Account>, addresses: seq<Address>, nextPersonId: nat)

  /** No two accounts share a login. */
  predicate UniqueLogins(people: seq<Account>) {
    forall i, j :: 0 <= i < j < |people| ==> people[i].login != people[j].login
  }

  /** Account ids are distinct and below the identity counter; address ids are distinct. */
  predicate Keyed(s: Store) {
    && (forall i :: 0 <= i < |s.people| ==> s.people[i].id < s.nextPersonId)
    && (forall i, j :: 0 <= i < j < |s.people| ==> s.people[i].id != s.people[j].id)
    && (forall i, j :: 0 <= i < j < |s.addresses| ==> s.addresses[i].id != s.addresses[j].id)
  }

  /** The store invariant every request preserves. */
  predicate Consistent(s: Store) {
    Keyed(s) && UniqueLogins(s.people)
  }

  /** The row selectors the controller's queries use. */
  function LoginIs(login: string): Account -> bool {
    (a: Account) => a.login == login
  }

  function IdIs(id: nat): Account -> bool {
    (a: Account) => a.id == id
  }

  /** Some account has this login (`People.Any(p => p.Login == login)`). */
  predicate LoginTaken(people: seq<Account>, login: string) {
    exists i :: 0 <= i < |people| && people[i].login == login
  }

  /** `People.Find(id)`: the position of the account with this key. */
  function FindPerson(people: seq<Account>, id: nat): (r: Option<nat>)
    ensures r.Some? ==> r.value < |people| && people[r.value].id == id
    ensures r.None? <==> forall j :: 0 <= j < |people| ==> people[j].id != id
  {
    FirstIndex(people, IdIs(id))
  }

  /** `Address.Find(id)`: the position of the listing with this key. */
  function FindAddress(addresses: seq<Address>, id: nat): (r: Option<nat>)
    ensures r.Some? ==> r.value < |addresses| && addresses[r.value].id == id
    ensures r.None? <==> forall j :: 0 <= j < |addresses| ==> addresses[j].id != id
  {
    FirstIndex(addresses, (a: Address) => a.id == id)
  }

  /** `People.FirstOrDefault(p => p.Login == login)`: the first account with this login. */
  function FirstByLogin(people: seq<Account>, login: string): (r: Option<nat>)
    ensures r.Some? ==> r.value < |people| && people[r.value].login == login
    ensures r.Some? ==> forall j :: 0 <= j < r.value ==> people[j].login != login
    ensures r.None? <==> !LoginTaken(people, login)
  {
    FirstIndex(people, LoginIs(login))
  }

  /** The outcome of `SingleOrDefault`: nothing, the one match, or the
      exception it throws when more than one row matches. */
  datatype Lookup = NoMatch | Match(account: Account) | Ambiguous

  /** `People.SingleOrDefault(p => p.Login == login)`. */
  function SingleByLogin(people: seq<Account>, login: string): (r: Lookup)
    ensures r.NoMatch? <==> !LoginTaken(people, login)
    ensures r.Match? ==> r.account in people && r.account.login == login
    ensures r.Match? ==> forall i :: 0 <= i < |people| && people[i].login == login ==> people[i] == r.account
    ensures UniqueLogins(people) ==> !r.Ambiguous?
  {
    var matches := Filter(people, LoginIs(login));
    if |matches| == 0 then
      NoMatch
    else if |matches| == 1 then
      Match(matches[0])
    else
      AtMostOneMatch(people, login);
      Ambiguous
  }

  /** With unique logins, at most one account has a given login. */
  lemma {:induction false} AtMostOneMatch(people: seq<Account>, login: string)
    ensures UniqueLogins(people) ==> |Filter(people, LoginIs(login))| <= 1
  {
    if |people| > 0 && UniqueLogins(people) {
      assert UniqueLogins(people[1..]);
      if people[0].login == login {
        var rest := Filter(people[1..], LoginIs(login));
        assert forall j :: 0 <= j < |people[1..]| ==> people[1..][j].login != login by {
          forall j | 0 <= j < |people[1..]| ensures people[1..][j].login != login {
            assert people[1..][j] == people[j + 1];
          }
        }
        assert Filter(people, LoginIs(login)) == [people[0]] + rest;
      } else {
        AtMostOneMatch(people[1..], login);
      }
    }
  }
}

=== FILE: invariants.dfy ===
/** The store invariant across requests: keys stay unique and no two
    accounts ever share a login, whatever sequence of registrations,
    creations, edits and deletions is served. */
module Invariants {
  import opened Wrappers
  import opened Credentials
  import opened Entities
  import opened Claims
  import opened Responses
  import opened Accounts

  lemma RegisterUserKeepsConsistent(h: Hasher, s: Store, username: string, password: string, role: Role,
                                    file: Option<Upload>, salt: Salt, random: string)
    requires Consistent(s)
    ensures Consistent(RegisterUser(h, s, username, password, role, file, salt, random).1)
  {
    var (ok, after) := RegisterUser(h, s, username, password, role, file, salt, random);
    if ok {
      var n := |s.people|;
      forall i, j | 0 <= i < j < |after.people|
        ensures after.people[i].login != after.people[j].login
        ensures after.people[i].id != after.people[j].id
      {
        if j < n {
          assert after.people[i] == s.people[i] && after.people[j] == s.people[j];
        } else {
          assert after.people[i] == s.people[i];
        }
      }
    }
  }

  lemma EditUserKeepsConsistent(h: Hasher, s: Store, m: EditUserModel, salt: Salt, random: string)
    requires Consistent(s)
    ensures Consistent(EditUser(h, s, m, salt, random).1)
  {
    var (response, after) := EditUser(h, s, m, salt, random);
    if response == Redirect(HomeUrl) {
      var k := FindPerson(s.people, m.id).value;
      forall i, j | 0 <= i < j < |after.people|
        ensures after.people[i].login != after.people[j].login
      {
        if i == k {
          assert after.people[j] == s.people[j];
        } else if j == k {
          assert after.people[i] == s.people[i];
        }
      }
    }
  }

  lemma DelUserKeepsConsistent(s: Store, id: nat)
    requires Consistent(s)
    ensures Consistent(DelUser(s, id).1)
  {
    var after := DelUser(s, id).1;
    if FindPerson(s.people, id).Some? {
      var k := FindPerson(s.people, id).value;
      forall i, j | 0 <= i < j < |after.people|
        ensures after.people[i].login != after.people[j].login
        ensures after.people[i].id != after.people[j].id
      {
        var i' := if i < k then i else i + 1;
        var j' := if j < k then j else j + 1;
        assert after.people[i] == s.people[i'] && after.people[j] == s.people[j'];
      }
    }
  }

  /** One request to the account actions, with the values the environment
      supplies to it (caller identity, salt, random file name). */
  datatype Request =
    | SelfRegister(form: RegisterModel, salt: Salt, random: string)
    | AdminCreate(principal: Option<Identity>, createForm: UserModel, salt: Salt, random: string)
    | AdminEdit(principal: Option<Identity>, editForm: EditUserModel, salt: Salt, random: string)
    | AdminDelete(principal: Option<Identity>, id: nat)

  /** Serving one request. */
  function Serve(h: Hasher, s: Store, req: Request): Store {
    match req
    case SelfRegister(form, salt, random) => Register(h, s, form, salt, random).1
    case AdminCreate(p, form, salt, random) => CreateUserEndpoint(p, h, s, form, salt, random).1
    case AdminEdit(p, form, salt, random) => EditUserEndpoint(p, h, s, form, salt, random).1
    case AdminDelete(p, id) => DelUserEndpoint(p, s, id).1
  }

  /** Serving requests one after another, each atomically. */
  function ServeAll(h: Hasher, s: Store, reqs: seq<Request>): Store
    decreases |reqs|
  {
    if |reqs| == 0 then s else ServeAll(h, Serve(h, s, reqs[0]), reqs[1..])
  }

  lemma ServeKeepsConsistent(h: Hasher, s: Store, req: Request)
    requires Consistent(s)
    ensures Consistent(Serve(h, s, req))
  {
    match req
    case SelfRegister(form, salt, random) =>
      RegisterUserKeepsConsistent(h, s, form.username, form.password, User, form.avatar, salt, random);
    case AdminCreate(p, form, salt, random) =>
      RegisterUserKeepsConsistent(h, s, form.username, form.password, form.role, form.avatar, salt, random);
    case AdminEdit(p, form, salt, random) =>
      EditUserKeepsConsistent(h, s, form, salt, random);
    case AdminDelete(p, id) =>
      DelUserKeepsConsistent(s, id);
  }

  /** No sequence of account requests ever produces two accounts with one login. */
  lemma {:induction false} ServeAllKeepsConsistent(h: Hasher, s: Store, reqs: seq<Request>)
    requires Consistent(s)
    ensures Consistent(ServeAll(h, s, reqs))
    ensures UniqueLogins(ServeAll(h, s, reqs).people)
    decreases |reqs|
  {
    if |reqs| > 0 {
      ServeKeepsConsistent(h, s, reqs[0]);
      ServeAllKeepsConsistent(h, Serve(h, s, reqs[0]), reqs[1..]);
    }
  }

  /** Registering a free login twice in a row succeeds, then is refused
      with the store left as the first registration made it. */
  lemma RegisterTwice(h: Hasher, s: Store, username: string, p1: string, p2: string, role: Role,
                      file: Option<Upload>, salt1: Salt, salt2: Salt, random1: string, random2: string)
    requires !LoginTaken(s.people, username)
    ensures var (first, s1) := RegisterUser(h, s, username, p1, role, file, salt1, random1);
            var (second, s2) := RegisterUser(h, s1, username, p2, role, file, salt2, random2);
            first && !second && s2 == s1
  {
    var (first, s1) := RegisterUser(h, s, username, p1, role, file, salt1, random1);
    assert s1.people[|s.people|].login == username;
  }
}

=== FILE: listings.dfy ===
/** Address listings and their ownership: the user page shows a caller
    only their own listings, and only a listing's owner can delete it. */
module Listings {
  import opened Wrappers
  import opened Seqs
  import opened Entities
  import opened Responses

  /** The listing as the user page shows it: everything but the owner. */
  datatype AddressModel = AddressModel(id: nat, addr: string, description: string, cost: int, rooms: int)

  function ModelOf(a: Address): AddressModel {
    AddressModel(a.id, a.addr, a.description, a.cost, a.rooms)
  }

  function OwnerIs(owner: nat): Address -> bool {
    (a: Address) => a.owner == owner
  }

  /** `Address.Where(a => a.Owner.Id == owner)`. */
  function OwnedBy(addresses: seq<Address>, owner: nat): seq<Address> {
    Filter(addresses, OwnerIs(owner))
  }

  /** The listings of `Userpage` for the signed-in account `userId`: the
      query's rows, in order, each copied into a view model. */
  method Userpage(addresses: seq<Address>, userId: nat) returns (listing: seq<AddressModel>)
    ensures |listing| == |OwnedBy(addresses, userId)|
    ensures forall k :: 0 <= k < |listing| ==> listing[k] == ModelOf(OwnedBy(addresses, userId)[k])
    ensures forall i :: 0 <= i < |addresses| && addresses[i].owner == userId ==> ModelOf(addresses[i]) in listing
    ensures forall k :: 0 <= k < |listing| ==>
      exists i :: 0 <= i < |addresses| && addresses[i].owner == userId && listing[k] == ModelOf(addresses[i])
  {
    var owned := OwnedBy(addresses, userId);
    listing := [];
    var n := 0;
    while n < |owned|
      invariant n <= |owned|
      invariant |listing| == n
      invariant forall k :: 0 <= k < n ==> listing[k] == ModelOf(owned[k])
    {
      listing := listing + [ModelOf(owned[n])];
      n := n + 1;
    }
    forall i | 0 <= i < |addresses| && addresses[i].owner == userId
      ensures ModelOf(addresses[i]) in listing
    {
      assert OwnerIs(userId)(addresses[i]);
      var k :| 0 <= k < |owned| && owned[k] == addresses[i];
      assert listing[k] == ModelOf(addresses[i]);
    }
    forall k | 0 <= k < |listing|
      ensures exists i :: 0 <= i < |addresses| && addresses[i].owner == userId && listing[k] == ModelOf(addresses[i])
    {
      assert owned[k] in addresses && OwnerIs(userId)(owned[k]);
    }
  }

  /** `DeleteAddress` for the signed-in account `callerId`. A missing
      listing is dereferenced as null and the request fails; a listing of
      another owner is silently kept; either way a found listing gets the
      same redirect. */
  function DeleteAddress(s: Store, callerId: nat, addressId: nat): (r: (Response, Store))
    ensures FindAddress(s.addresses, addressId).None? ==> r == (ServerError, s)
    ensures FindAddress(s.addresses, addressId).Some? ==> r.0 == Redirect(UserPageUrl)
    ensures r.1 != s ==> var k := FindAddress(s.addresses, addressId).value;
      s.addresses[k].owner == callerId && r.1 == s.(addresses := RemoveAt(s.addresses, k))
    ensures FindAddress(s.addresses, addressId).Some?
            && s.addresses[FindAddress(s.addresses, addressId).value].owner == callerId
            ==> |r.1.addresses| == |s.addresses| - 1
  {
    match FindAddress(s.addresses, addressId)
    case None => (ServerError, s)
    case Some(k) =>
      if s.addresses[k].owner == callerId then
        (Redirect(UserPageUrl), s.(addresses := RemoveAt(s.addresses, k)))
      else
        (Redirect(UserPageUrl), s)
  }

  /** A delete by the owner takes exactly that listing away: the owner
      has one listing fewer, every other owner's listings are as before,
      and (with unique keys) no listing with that id is left. */
  lemma OwnerDeleteRemovesOnlyThatListing(s: Store, callerId: nat, addressId: nat, other: nat)
    requires Keyed(s)
    requires FindAddress(s.addresses, addressId).Some?
    requires s.addresses[FindAddress(s.addresses, addressId).value].owner == callerId
    requires other != callerId
    ensures var after := DeleteAddress(s, callerId, addressId).1;
            && |OwnedBy(after.addresses, callerId)| == |OwnedBy(s.addresses, callerId)| - 1
            && OwnedBy(after.addresses, other) == OwnedBy(s.addresses, other)
            && after.people == s.people
            && forall j :: 0 <= j < |after.addresses| ==> after.addresses[j].id != addressId
  {
    var k := FindAddress(s.addresses, addressId).value;
    FilterRemoveAccepted(s.addresses, k, OwnerIs(callerId));
    FilterRemoveRejected(s.addresses, k, OwnerIs(other));
    var after := DeleteAddress(s, callerId, addressId).1;
    forall j | 0 <= j < |after.addresses| ensures after.addresses[j].id != addressId {
      if j < k { assert after.addresses[j] == s.addresses[j]; }
      else { assert after.addresses[j] == s.addresses[j + 1]; }
    }
  }

  /** A delete by anyone but the owner changes nothing, yet answers exactly
      as a real deletion would. */
  lemma NonOwnerDeleteChangesNothing(s: Store, callerId: nat, addressId: nat)
    requires FindAddress(s.addresses, addressId).Some?
    requires s.addresses[FindAddress(s.addresses, addressId).value].owner != callerId
    ensures DeleteAddress(s, callerId, addressId).1 == s
    ensures forall o :: |OwnedBy(DeleteAddress(s, callerId, addressId).1.addresses, o)| == |OwnedBy(s.addresses, o)|
    ensures var owner := s.addresses[FindAddress(s.addresses, addressId).value].owner;
            DeleteAddress(s, callerId, addressId).0 == DeleteAddress(s, owner, addressId).0
  {
  }
}

=== FILE: paths.dfy ===
/** The path and file-name functions the avatar code relies on, with the
    .NET semantics for a '/'-separated file system: `Path.Combine`,
    `Path.GetExtension`, `Int32.ToString`, the avatar file name built from
    a random name and the upload's extension, and the content-type lookup
    of `FileExtensionContentTypeProvider`. */
module Paths {
  import opened Wrappers

  const Separator := '/'

  /** `Path.Combine(first, second)`: `second` alone when it is rooted or
      `first` is empty, otherwise the two joined by one separator. */
  function Combine(first: string, second: string): (r: string)
    ensures second != "" ==> |second| <= |r| && r[|r| - |second|..] == second
    ensures first != "" && second != "" && second[0] != Separator ==> |first| < |r| && r[..|first|] == first
    ensures second == "" ==> r == first
    ensures second != "" && (first == "" || second[0] == Separator) ==> r == second
    ensures first != "" && second != "" && second[0] != Separator ==>
              // exactly one separator between the parts
              if first[|first| - 1] == Separator then r == first + second
              else r == first + [Separator] + second
  {
    if second == "" then first
    else if first == "" || second[0] == Separator then second
    else if first[|first| - 1] == Separator then first + second
    else first + [Separator] + second
  }

  /** Position `p` holds the dot that starts an extension: no dot and no
      separator follows it. */
  ghost predicate ExtensionDot(path: string, p: int) {
    0 <= p < |path| && path[p] == '.'
    && forall j :: p < j < |path| ==> path[j] != '.' && path[j] != Separator
  }

  /** `Path.GetExtension`: the suffix from the last dot of the last path
      segment, or "" when there is none or the dot ends the path. */
  function GetExtension(path: string): (r: string)
    ensures forall p :: ExtensionDot(path, p) && p < |path| - 1 ==> r == path[p..]
    ensures r != "" ==> exists p :: ExtensionDot(path, p) && p < |path| - 1 && r == path[p..]
  {
    ExtensionScan(path, |path|)
  }

  /** The backwards scan of `GetExtension`, having passed `path[i..]`. */
  function ExtensionScan(path: string, i: nat): (r: string)
    requires i <= |path|
    requires forall j :: i <= j < |path| ==> path[j] != '.' && path[j] != Separator
    ensures forall p :: ExtensionDot(path, p) && p < |path| - 1 ==> r == path[p..]
    ensures r != "" ==> exists p :: ExtensionDot(path, p) && p < |path| - 1 && r == path[p..]
    decreases i
  {
    if i == 0 then ""
    else if path[i - 1] == '.' then (if i == |path| then "" else path[i - 1..])
    else if path[i - 1] == Separator then ""
    else ExtensionScan(path, i - 1)
  }

  /** A non-empty extension is a dot followed by at least one character,
      none of them a dot or a separator. */
  lemma ExtensionShape(path: string)
    ensures var e := GetExtension(path);
            e != "" ==> |e| >= 2 && e[0] == '.' && forall j :: 1 <= j < |e| ==> e[j] != '.' && e[j] != Separator
  {
    var e := GetExtension(path);
    if e != "" {
      var p :| ExtensionDot(path, p) && p < |path| - 1 && e == path[p..];
      forall j | 1 <= j < |e| ensures e[j] != '.' && e[j] != Separator {
        assert e[j] == path[p + j];
      }
    }
  }

  /** The stored avatar name: `$"{random}.{Path.GetExtension(upload)}"`.
      `GetExtension` already starts with a dot, so a name with an
      extension gets two dots in a row, and one without ends in a dot. */
  /** What `Path.GetRandomFileName()` guarantees of its result: a
      non-empty relative name without a separator. */
  predicate RandomFileName(random: string) {
    random != "" && forall j :: 0 <= j < |random| ==> random[j] != Separator
  }

  function AvatarFileName(random: string, upload: string): string {
    random + "." + GetExtension(upload)
  }

  /** The stored avatar name keeps the uploaded file's extension. */
  lemma AvatarNameKeepsExtension(random: string, upload: string)
    ensures GetExtension(AvatarFileName(random, upload)) == GetExtension(upload)
  {
    var e := GetExtension(upload);
    var name := AvatarFileName(random, upload);
    ExtensionShape(upload);
    if e == "" {
      assert name[|name| - 1] == '.';
    } else {
      var p := |random| + 1;
      forall j | p < j < |name| ensures name[j] != '.' && name[j] != Separator {
        assert name[j] == e[j - p];
      }
      assert ExtensionDot(name, p);
      assert name[p..] == e;
    }
  }

  /** `String.LastIndexOf('.')`. */
  function LastDot(s: string): (r: Option<nat>)
    ensures r.Some? ==> r.value < |s| && s[r.value] == '.' && forall j :: r.value < j < |s| ==> s[j] != '.'
    ensures r.None? ==> forall j :: 0 <= j < |s| ==> s[j] != '.'
  {
    if |s| == 0 then None
    else if s[|s| - 1] == '.' then Some(|s| - 1)
    else LastDot(s[..|s| - 1])
  }

  /** The characters `String.IsNullOrWhiteSpace` treats as blank (the
      ASCII ones and the two Latin-1 ones). */
  predicate IsWhiteSpace(c: char) {
    c == ' ' || c == '\t' || c == '\n' || c == '\r' || c == '\U{000B}' || c == '\U{000C}'
    || c == '\U{0085}' || c == '\U{00A0}'
  }

  /** The extension `FileExtensionContentTypeProvider` looks up: everything
      from the last dot of the whole path, or none for a blank path or one
      without a dot. Unlike `GetExtension` it does not stop at separators. */
  function ProviderExtension(path: string): (r: Option<string>)
    ensures r.Some? ==>
      exists p :: (0 <= p < |path| && path[p] == '.' && r.value == path[p..]
                   && forall j :: p < j < |path| ==> path[j] != '.')
    ensures (exists p :: 0 <= p < |path| && path[p] == '.') ==> r.Some?
  {
    if forall j :: 0 <= j < |path| ==> IsWhiteSpace(path[j]) then None
    else match LastDot(path)
      case None => None
      case Some(p) => Some(path[p..])
  }

  const OctetStream := "application/octet-stream"

  /** `GetContentType`: the provider's mapping for the extension, falling
      back to `application/octet-stream` when it has none. */
  function GetContentType(path: string, mappings: map<string, string>): (r: string)
    ensures r == OctetStream <==>
      (ProviderExtension(path).None? || ProviderExtension(path).value !in mappings
       || mappings[ProviderExtension(path).value] == OctetStream)
    ensures ProviderExtension(path).Some? && ProviderExtension(path).value in mappings ==>
      r == mappings[ProviderExtension(path).value]
  {
    match ProviderExtension(path)
    case None => OctetStream
    case Some(ext) => if ext in mappings then mappings[ext] else OctetStream
  }

  /** The provider reads the suffix from the last dot of the path. */
  lemma ProviderExtensionAt(path: string, q: nat)
    requires q < |path| && path[q] == '.'
    requires forall j :: q < j < |path| ==> path[j] != '.'
    ensures ProviderExtension(path) == Some(path[q..])
  {
    var r := ProviderExtension(path);
    var p :| 0 <= p < |path| && path[p] == '.' && r.value == path[p..]
      && forall j :: p < j < |path| ==> path[j] != '.';
    assert p == q;
  }

  /** The last dot of a stored avatar name starts the upload's extension,
      or is the name's final character when the upload had none. */
  lemma AvatarNameLastDot(random: string, upload: string) returns (q: nat)
    ensures var name := AvatarFileName(random, upload);
            var e := GetExtension(upload);
            && q < |name| && name[q] == '.'
            && (forall j :: q < j < |name| ==> name[j] != '.')
            && name[q..] == (if e == "" then "." else e)
  {
    var e := GetExtension(upload);
    var name := AvatarFileName(random, upload);
    ExtensionShape(upload);
    if e == "" {
      q := |name| - 1;
    } else {
      q := |random| + 1;
      forall j | q < j < |name| ensures name[j] != '.' {
        assert name[j] == e[j - q];
      }
      assert name[q..] == e;
    }
  }

  /** The extension the provider reads from any path ending in a stored
      avatar name: the upload's extension, or a lone dot when the upload
      had none. */
  lemma ProviderSeesUploadExtension(folder: string, random: string, upload: string)
    ensures var e := GetExtension(upload);
            ProviderExtension(Combine(folder, AvatarFileName(random, upload)))
              == Some(if e == "" then "." else e)
  {
    var name := AvatarFileName(random, upload);
    var q := AvatarNameLastDot(random, upload);
    ProviderExtensionOfSuffix(Combine(folder, name), name, q);
  }

  /** A path ending in a name that contains a dot has the name's last dot as its own. */
  lemma ProviderExtensionOfSuffix(path: string, name: string, q: nat)
    requires |name| <= |path| && path[|path| - |name|..] == name
    requires q < |name| && name[q] == '.'
    requires forall j :: q < j < |name| ==> name[j] != '.'
    ensures ProviderExtension(path) == Some(name[q..])
  {
    var k := |path| - |name|;
    forall j | k + q < j < |path| ensures path[j] != '.' {
      assert path[j] == name[j - k];
    }
    assert path[k + q] == name[q];
    assert path[k + q..] == name[q..];
    ProviderExtensionAt(path, k + q);
  }

  /** `Int32.ToString()` of a non-negative id: its decimal digits. */
  function DecimalString(n: nat): (s: string)
    ensures |s| > 0
    ensures forall j :: 0 <= j < |s| ==> '0' <= s[j] <= '9'
    ensures s[0] == '0' <==> n == 0
    ensures |s| > 1 ==> s[0] != '0'
  {
    if n < 10 then [Digit(n)] else DecimalString(n / 10) + [Digit(n % 10)]
  }

  function Digit(d: nat): (c: char)
    requires d < 10
    ensures '0' <= c <= '9'
    ensures c == '0' <==> d == 0
  {
    ['0', '1', '2', '3', '4', '5', '6', '7', '8', '9'][d]
  }

  /** The value of a string of decimal digits. */
  function DecimalValue(s: string): nat
    requires forall j :: 0 <= j < |s| ==> '0' <= s[j] <= '9'
  {
    if |s| == 0 then 0 else 10 * DecimalValue(s[..|s| - 1]) + (s[|s| - 1] as int - '0' as int)
  }

  /** Reading the digits back gives the id, so distinct accounts get
      distinct image folders. */
  lemma {:induction false} DecimalRoundTrip(n: nat)
    ensures DecimalValue(DecimalString(n)) == n
  {
    var s := DecimalString(n);
    if n >= 10 {
      DecimalRoundTrip(n / 10);
      assert s[..|s| - 1] == DecimalString(n / 10);
    }
  }

  lemma DecimalStringInjective(m: nat, n: nat)
    ensures DecimalString(m) == DecimalString(n) ==> m == n
  {
    DecimalRoundTrip(m);
    DecimalRoundTrip(n);
  }
}

=== FILE: responses.dfy ===
/** The action results of the controller, reduced to tags: a redirect, the
    form re-shown with a model-state error, the authorization middleware's
    challenge or forbid, or an unhandled exception. */
module Responses {

  datatype Response =
    | Redirect(url: string)
    | FormError(key: string, message: string)
    | Challenge
    | Forbid
    | ServerError

  const HomeUrl := "/Home/Index"
  const ListUsersUrl := "ListUsers"
  const UserPageUrl := "/Account/UserPage"
}

=== FILE: scenarios.dfy ===
/** Properties that span several requests: what a registration or an edit
    means for later sign-ins, and the register-then-sign-in walk-through. */
module Scenarios {
  import opened Wrappers
  import opened Credentials
  import opened Entities
  import opened Claims
  import opened Responses
  import opened Authorization
  import opened Authentication
  import opened Accounts
  import opened Invariants

  /** In a store with unique logins, the account at `k` is the one a
      sign-in with its login and a verifying password is granted as. */
  lemma SignInAs(h: Hasher, people: seq<Account>, k: nat, password: string)
    requires UniqueLogins(people)
    requires k < |people| && h.verify(people[k].passwordHash, password)
    ensures GetIdentity(h, people, people[k].login, password) == Authenticated(IdentityOf(people[k]))
  {
    var r := GetIdentity(h, people, people[k].login, password);
    assert CredentialsMatch(h, people, people[k].login, password);
    var i :| 0 <= i < |people| && people[i].login == people[k].login
      && h.verify(people[i].passwordHash, password) && r.identity == IdentityOf(people[i]);
    assert i == k;
  }

  /** A fresh registration can sign in with its password, as its login and role. */
  lemma RegisteredUserSignsIn(h: Hasher, s: Store, username: string, password: string, role: Role,
                              file: Option<Upload>, salt: Salt, random: string)
    requires Sound(h) && Consistent(s)
    requires !LoginTaken(s.people, username)
    ensures var after := RegisterUser(h, s, username, password, role, file, salt, random).1;
            GetIdentity(h, after.people, username, password) == Authenticated(Identity(username, RoleName(role)))
  {
    var after := RegisterUser(h, s, username, password, role, file, salt, random).1;
    RegisterUserKeepsConsistent(h, s, username, password, role, file, salt, random);
    SignInAs(h, after.people, |s.people|, password);
  }

  /** After an edit, the account signs in under its new login with the new
      password when one was given, with its old password otherwise, and its
      old login no longer signs anyone in. */
  lemma EditedUserSignsIn(h: Hasher, s: Store, m: EditUserModel, salt: Salt, random: string,
                          oldPassword: string, anyPassword: string)
    requires Sound(h) && Consistent(s)
    requires EditUser(h, s, m, salt, random).0 == Redirect(HomeUrl)
    ensures var k := FindPerson(s.people, m.id).value;
            var after := EditUser(h, s, m, salt, random).1;
            var identity := Authenticated(Identity(m.username, RoleName(m.role)));
            && (m.newPassword != "" ==> GetIdentity(h, after.people, m.username, m.newPassword) == identity)
            && (m.newPassword == "" && h.verify(s.people[k].passwordHash, oldPassword)
                ==> GetIdentity(h, after.people, m.username, oldPassword) == identity)
            && (s.people[k].login != m.username
                ==> GetIdentity(h, after.people, s.people[k].login, anyPassword) == InvalidCredentials)
  {
    var k := FindPerson(s.people, m.id).value;
    var after := EditUser(h, s, m, salt, random).1;
    EditUserKeepsConsistent(h, s, m, salt, random);
    if m.newPassword != "" {
      SignInAs(h, after.people, k, m.newPassword);
    }
    if m.newPassword == "" && h.verify(s.people[k].passwordHash, oldPassword) {
      SignInAs(h, after.people, k, oldPassword);
    }
    var oldLogin := s.people[k].login;
    if oldLogin != m.username {
      forall j | 0 <= j < |after.people| ensures after.people[j].login != oldLogin {
        if j != k {
          assert after.people[j] == s.people[j];
        }
      }
    }
  }

  /** In a store with unique logins, a password the account's hash does
      not verify signs nobody in under its login. */
  lemma WrongPasswordRefused(h: Hasher, people: seq<Account>, k: nat, password: string)
    requires UniqueLogins(people)
    requires k < |people| && !h.verify(people[k].passwordHash, password)
    ensures GetIdentity(h, people, people[k].login, password) == InvalidCredentials
  {
    assert !CredentialsMatch(h, people, people[k].login, password) by {
      forall j | 0 <= j < |people| && people[j].login == people[k].login
        ensures !h.verify(people[j].passwordHash, password)
      {
        assert j == k;
      }
    }
  }

  /** Sign-in by session and by token for an account "alice" whose hash
      verifies "pw123" and not "wrong". */
  lemma AliceSignsIn(h: Hasher, people: seq<Account>, n: nat, options: AuthOptions, now: int)
    requires UniqueLogins(people)
    requires n < |people| && people[n].login == "alice" && people[n].role == User
    requires h.verify(people[n].passwordHash, "pw123") && !h.verify(people[n].passwordHash, "wrong")
    requires options.lifetime > 0
    ensures Login(h, people, None, "alice", "pw123") == (Redirect(HomeUrl), Some(Identity("alice", "User")))
    ensures Login(h, people, None, "alice", "wrong").0 == FormError("Username", LoginErrorText)
    ensures Token(h, people, options, now, "alice", "pw123")
              == Issued(Jwt(options.issuer, options.audience, now, now + options.lifetime * TicksPerMinute,
                            Identity("alice", "User")), "alice")
    ensures Token(h, people, options, now, "alice", "wrong") == BadRequest(InvalidCredentialsText)
  {
    SignInAs(h, people, n, "pw123");
    WrongPasswordRefused(h, people, n, "wrong");
  }

  /** Registering a free "alice" with "pw123" succeeds and appends her as
      a User with the salted hash, keeping logins unique. */
  lemma AliceRegisters(h: Hasher, s: Store, salt: Salt, random: string)
    requires Consistent(s)
    requires !LoginTaken(s.people, "alice")
    ensures var (response, after) := Register(h, s, RegisterModel("alice", "pw123", None), salt, random);
            var n := |s.people|;
            && response == Redirect(HomeUrl)
            && UniqueLogins(after.people)
            && n < |after.people| && after.people[n].login == "alice" && after.people[n].role == User
            && after.people[n].passwordHash == h.hash(salt, "pw123")
  {
    RegisterUserKeepsConsistent(h, s, "alice", "pw123", User, None, salt, random);
  }

  /** The walk-through: register ("alice", "pw123") as a User; signing in
      with that password yields {name: "alice", role: "User"} by session
      and by token, and a wrong password is refused by both. */
  lemma AliceWalkThrough(h: Hasher, s: Store, options: AuthOptions, now: int, salt: Salt, random: string)
    requires Sound(h) && Binding(h) && Consistent(s)
    requires !LoginTaken(s.people, "alice")
    requires options.lifetime > 0
    ensures Register(h, s, RegisterModel("alice", "pw123", None), salt, random).0 == Redirect(HomeUrl)
    ensures var after := Register(h, s, RegisterModel("alice", "pw123", None), salt, random).1;
            Login(h, after.people, None, "alice", "pw123") == (Redirect(HomeUrl), Some(Identity("alice", "User")))
    ensures var after := Register(h, s, RegisterModel("alice", "pw123", None), salt, random).1;
            Login(h, after.people, None, "alice", "wrong").0 == FormError("Username", LoginErrorText)
    ensures var after := Register(h, s, RegisterModel("alice", "pw123", None), salt, random).1;
            Token(h, after.people, options, now, "alice", "pw123")
              == Issued(Jwt(options.issuer, options.audience, now, now + options.lifetime * TicksPerMinute,
                            Identity("alice", "User")), "alice")
    ensures var after := Register(h, s, RegisterModel("alice", "pw123", None), salt, random).1;
            Token(h, after.people, options, now, "alice", "wrong") == BadRequest(InvalidCredentialsText)
    ensures Decide(Some(Identity("alice", "User")), AdminOnly) == Some(Forbid)
  {
    var after := Register(h, s, RegisterModel("alice", "pw123", None), salt, random).1;
    AliceRegisters(h, s, salt, random);
    var digest := h.hash(salt, "pw123");
    assert h.verify(digest, "pw123");
    assert !h.verify(digest, "wrong");
    AliceSignsIn(h, after.people, |s.people|, options, now);
  }
}

=== FILE: seqs.dfy ===
/** Sequence operations standing in for the LINQ and Entity Framework
    operators the controller applies to its tables: `Where`, `Any`,
    `FirstOrDefault`, `Find` and `Remove`. */
module Seqs {
  import opened Wrappers

  /** The elements that `keep` accepts, in table order (LINQ `Where`). */
  function Filter<T>(s: seq<T>, keep: T -> bool): (r: seq<T>)
    ensures |r| <= |s|
    ensures forall k :: 0 <= k < |r| ==> r[k] in s && keep(r[k])
    ensures forall k :: 0 <= k < |s| && keep(s[k]) ==> s[k] in r
    ensures |r| == 0 <==> forall k :: 0 <= k < |s| ==> !keep(s[k])
  {
    if |s| == 0 then []
    else if keep(s[0]) then [s[0]] + Filter(s[1..], keep)
    else Filter(s[1..], keep)
  }

  /** Filtering distributes over concatenation. */
  lemma {:induction false} FilterAppend<T>(a: seq<T>, b: seq<T>, keep: T -> bool)
    ensures Filter(a + b, keep) == Filter(a, keep) + Filter(b, keep)
  {
    if |a| == 0 {
      assert a + b == b;
    } else {
      assert (a + b)[0] == a[0];
      assert (a + b)[1..] == a[1..] + b;
      FilterAppend(a[1..], b, keep);
    }
  }

  /** Removing an element the filter rejects leaves the filtered view as it was. */
  lemma FilterRemoveRejected<T>(s: seq<T>, i: nat, keep: T -> bool)
    requires i < |s| && !keep(s[i])
    ensures Filter(RemoveAt(s, i), keep) == Filter(s, keep)
  {
    var a, b := s[..i], s[i + 1..];
    var c := [s[i]] + b;
    assert RemoveAt(s, i) == a + b;
    assert s == a + c;
    assert c[0] == s[i] && c[1..] == b;
    assert Filter(c, keep) == Filter(b, keep);
    FilterAppend(a, c, keep);
    FilterAppend(a, b, keep);
  }

  /** Removing an element the filter accepts shortens the filtered view by one. */
  lemma FilterRemoveAccepted<T>(s: seq<T>, i: nat, keep: T -> bool)
    requires i < |s| && keep(s[i])
    ensures |Filter(RemoveAt(s, i), keep)| == |Filter(s, keep)| - 1
  {
    var a, b := s[..i], s[i + 1..];
    var c := [s[i]] + b;
    assert RemoveAt(s, i) == a + b;
    assert s == a + c;
    assert c[0] == s[i] && c[1..] == b;
    assert Filter(c, keep) == [s[i]] + Filter(b, keep);
    FilterAppend(a, c, keep);
    FilterAppend(a, b, keep);
  }

  /** Index of the first element `p` accepts (LINQ `FirstOrDefault`, EF `Find`). */
  function FirstIndex<T>(s: seq<T>, p: T -> bool): (r: Option<nat>)
    ensures r.Some? ==> r.value < |s| && p(s[r.value])
    ensures r.Some? ==> forall j :: 0 <= j < r.value ==> !p(s[j])
    ensures r.None? <==> forall j :: 0 <= j < |s| ==> !p(s[j])
  {
    if |s| == 0 then None
    else if p(s[0]) then Some(0)
    else match FirstIndex(s[1..], p)
      case None => None
      case Some(k) => Some(k + 1)
  }

  /** The table without its `i`-th row (EF `Remove` of a tracked entity). */
  function RemoveAt<T>(s: seq<T>, i: nat): (r: seq<T>)
    requires i < |s|
    ensures |r| == |s| - 1
    ensures forall j :: 0 <= j < i ==> r[j] == s[j]
    ensures forall j :: i <= j < |r| ==> r[j] == s[j + 1]
  {
    s[..i] + s[i + 1..]
  }
}

=== FILE: wrappers.dfy ===
/** The optional value the controller expresses with C# null. */
module Wrappers {

  datatype Option<+T> = None | Some(value: T)
}
